=== FILE: README.md ===
# Connector codegen: template selection, output tree and the `codegen` command

The CP4S connector SDK's `codegen` command generates a starter connector package.
This project models its core, `cp4s_connector_sdk/cmds/codegen_connector.py`:

- **Locator** (`locator.dfy`) — `get_jinja_env_location`. It maps a connector type to
  the template root. Only `"UDI"` selects the UDI templates; every other string falls
  back to the CAR templates.
- **Dicts** (`dicts.dfy`) — the semantics of a Python dict literal. Items are stored
  left to right, and a repeated key takes the last value. Dictionaries are sequences
  of (key, value) pairs, so order and collisions can be stated. The order follows
  insertion-ordered dicts (Python 3.7 and later), where a repeated key also keeps its
  first position.
- **Mapping** (`mapping.dfy`) — `get_car_connector_mapping_dict`. It builds the nested
  dictionary that maps output files to `(template, context)` pairs, as a tree of `Leaf`
  and `Dir` nodes, and `Flatten` lists the files such a tree describes. Proved:
  - with no collision, exactly twelve files in a fixed layout, each from the template
    its path names and with the given context;
  - the package name only names the package directory;
  - what happens when the package name collides with one of the literal's fixed keys.
- **Codegen** (`codegen.dfy`) — `ConnectorCodegenCmd.execute_command`, up to the call
  of the renderer:
  - `Run` is the specification function;
  - `ExecuteCommand` is the step-by-step method proved equal to it, over a
    `FileSystem` object whose set of existing paths `MakeDirs` grows.

  `os.path.abspath` and the package-name validator are parameters.

## Model

| member | source | states |
|---|---|---|
| Locator.JinjaEnvLocation | cp4s_connector_sdk/cmds/codegen_connector.py:132-146 | total; the UDI root exactly when the type is `"UDI"`, the CAR root exactly otherwise |
| Locator.DefaultIsCar | cp4s_connector_sdk/cmds/codegen_connector.py:132 | the default connector type `"CAR"` selects the CAR root |
| Locator.FallsBackToDefault | cp4s_connector_sdk/cmds/codegen_connector.py:144-146 | any non-`"UDI"` type gives the same root as the default; that root differs from the UDI root; both are non-empty |
| Dicts.Get | cp4s_connector_sdk/cmds/codegen_connector.py:158-178 | `d[k]` is missing exactly when no pair holds k; a found value is paired with k in the dict; in a dict without duplicate keys it is the value of the pair holding k |
| Dicts.Store | cp4s_connector_sdk/cmds/codegen_connector.py:158-178 | storing a present key keeps the key order; storing an absent key appends it |
| Dicts.StoreSemantics | cp4s_connector_sdk/cmds/codegen_connector.py:158-178 | after a store the key reads the new value, every other key reads as before, and keys stay distinct |
| Dicts.DictLiteral | cp4s_connector_sdk/cmds/codegen_connector.py:158-178 | an evaluated literal never holds a key twice |
| Dicts.DictLiteralKeyOrder | cp4s_connector_sdk/cmds/codegen_connector.py:158-178 | the keys appear in the order of their first occurrence among the items |
| Dicts.DictLiteralLastValueWins | cp4s_connector_sdk/cmds/codegen_connector.py:158-178 | each key holds the value of its last occurrence; a key that never occurs is missing |
| Dicts.DictLiteralOfDistinct | cp4s_connector_sdk/cmds/codegen_connector.py:158-178 | a literal whose keys all differ evaluates to its items in order |
| Dicts.LiteralWithRepeatedKey | cp4s_connector_sdk/cmds/codegen_connector.py:158-178 | a later duplicate key overwrites the earlier entry in place; the following new key is appended |
| Dicts.LiteralWithOverwrittenLast | cp4s_connector_sdk/cmds/codegen_connector.py:158-178 | when the last two items share a new key, only the last one remains, at the end |
| Mapping.Flatten | cp4s_connector_sdk/cmds/codegen_connector.py:158-178 | every file a (sub)tree describes lies under the directory path it is flattened at |
| Mapping.FlattenFrom | cp4s_connector_sdk/cmds/codegen_connector.py:158-178 | every file of a directory's entries lies strictly below that directory's path |
| Mapping.CarConnectorMappingDict | cp4s_connector_sdk/cmds/codegen_connector.py:149-178 | raises KeyError on `package_name` exactly when the context lacks it; otherwise a directory with distinct keys |
| Mapping.NestedLiterals | cp4s_connector_sdk/cmds/codegen_connector.py:163-177 | the `configurations`, package and `server` literals evaluate to their items |
| Mapping.CarItemsKeys | cp4s_connector_sdk/cmds/codegen_connector.py:158-177 | the outer literal writes the four file keys, `configurations`, the package name and `server`, in that order |
| Mapping.CarKeysDistinct | cp4s_connector_sdk/cmds/codegen_connector.py:158-177 | those seven keys are pairwise distinct when the package name is none of the six fixed keys |
| Mapping.CarMappingIsItems | cp4s_connector_sdk/cmds/codegen_connector.py:158-178 | with no collision the mapping is the seven items of the literal, in source order |
| Mapping.CarItemsValues | cp4s_connector_sdk/cmds/codegen_connector.py:159-177 | each top-level file's template is its name plus `.jinja2`, with the given context; the three directories hold the two configuration files, the six connector files and nothing |
| Mapping.CarMappingTopLevel | cp4s_connector_sdk/cmds/codegen_connector.py:158-178 | with no collision: exactly seven top-level entries (four files, then `configurations`, the package directory, an empty `server`) |
| Mapping.TopFiles | cp4s_connector_sdk/cmds/codegen_connector.py:159-162 | the four top-level files, at their names, with their templates and the context |
| Mapping.ConfigurationFilesOf | cp4s_connector_sdk/cmds/codegen_connector.py:163-166 | `configurations/config.json` and `configurations/lang.json`, from `configurations/<name>.jinja2` |
| Mapping.PackageFilesOf | cp4s_connector_sdk/cmds/codegen_connector.py:167-174 | for any package name, including `configurations`: the six package files under the package directory, each from `connector/<name>.jinja2` with the context; for every name but `configurations` these are also the templates the naming rule `TemplateName` gives |
| Mapping.CarItemsFlatten | cp4s_connector_sdk/cmds/codegen_connector.py:158-178 | the files of the mapping are the top files, then the configuration files, then the package files; `server` contributes none |
| Mapping.CarMappingFiles | cp4s_connector_sdk/cmds/codegen_connector.py:158-178 | with no collision: exactly 12 files, laid out as `ExpectedLayout`, each with the given context and the template its path names |
| Mapping.PackageNameOnlyNamesItsDirectory | cp4s_connector_sdk/cmds/codegen_connector.py:159-177 | two package names give the same twelve templates in order and the same paths, except the package directory's segment |
| Mapping.FixedItemsLiteral | cp4s_connector_sdk/cmds/codegen_connector.py:159-166 | the five items before the package directory have distinct keys and evaluate to themselves |
| Mapping.PackageDirReplacesEarlierEntry | cp4s_connector_sdk/cmds/codegen_connector.py:158-178 | a package named like a top file or `configurations` replaces that entry in place; six entries remain, and the package name reads the package directory |
| Mapping.ServerReplacesPackageDir | cp4s_connector_sdk/cmds/codegen_connector.py:167-177 | a package named `server` is replaced by the empty `server` directory; only the six top and configuration files remain |
| Codegen.ParseArgs | cp4s_connector_sdk/cmds/codegen_connector.py:37-43 | `--connectortype` defaults to `"CAR"`; the other options pass through |
| Codegen.Join | cp4s_connector_sdk/cmds/codegen_connector.py:73-74 | an absolute name replaces the directory; a relative name is appended, after exactly one separator unless the directory is empty or already ends with one (the length fixes that nothing else is inserted) |
| Codegen.OutputBase | cp4s_connector_sdk/cmds/codegen_connector.py:72-74 | an absolute package name is the output base itself; a relative one is appended to the absolute output directory (`.` when `--output` is absent or empty) after exactly one separator, unless that directory is empty or ends with one |
| Codegen.MakeDirsThenExists | cp4s_connector_sdk/cmds/codegen_connector.py:57-82 | `os.path.exists` holds for a path once `os.makedirs` created it, and for every path that existed before |
| Codegen.Run | cp4s_connector_sdk/cmds/codegen_connector.py:48-104 | a run only adds existing paths; a run that does not generate adds none; after a generating run the output base exists |
| Codegen.FileSystem.MakeDirs | cp4s_connector_sdk/cmds/codegen_connector.py:81-82 | `os.makedirs` adds the directory and its ancestors, and removes nothing |
| Codegen.ExecuteCommand | cp4s_connector_sdk/cmds/codegen_connector.py:45-129 | outcome and new set of existing paths equal `Run` of the arguments and the old set |
| Codegen.HelpWithoutPackage | cp4s_connector_sdk/cmds/codegen_connector.py:48-129 | help is printed exactly when no non-empty package is given; then nothing is created |
| Codegen.ExistenceCheckedFirst | cp4s_connector_sdk/cmds/codegen_connector.py:57-63 | an existing package path raises the already-exists error whatever the validator says; nothing is created |
| Codegen.NameCheckedSecond | cp4s_connector_sdk/cmds/codegen_connector.py:61-63 | an absent path with an invalid name raises the invalid-name error; nothing is created |
| Codegen.MessagesQuotePackage | cp4s_connector_sdk/cmds/codegen_connector.py:57-63 | both error messages quote the package argument as given |
| Codegen.NeverKeyError | cp4s_connector_sdk/cmds/codegen_connector.py:76-78 | the context the command builds holds `package_name`, so the mapping built from it never raises KeyError |
| Codegen.GeneratedIff | cp4s_connector_sdk/cmds/codegen_connector.py:48-82 | generation proceeds exactly when a package is given, its path is absent and its name is valid; otherwise nothing is created |
| Codegen.SuccessPlan | cp4s_connector_sdk/cmds/codegen_connector.py:69-104 | on success: output base = abspath(output or `.`) joined with the name; context = only `package_name`; root from the type; CAR mapping of the context; output base created only if absent, nothing removed |
| Codegen.MappingIgnoresConnectorType | cp4s_connector_sdk/cmds/codegen_connector.py:84-104 | the connector type changes only the template root: same directories created, same output base, context and mapping |
| Codegen.DefaultConnectorTypeUsesCarTemplates | cp4s_connector_sdk/cmds/codegen_connector.py:41-43 | without `-t`, or with any type but `"UDI"`, a successful run uses the CAR templates |
| Codegen.ExistingOutputBaseNotRejected | cp4s_connector_sdk/cmds/codegen_connector.py:57-82 | the pre-check is on the package argument: an existing output base does not stop the run, and nothing is created |
| Codegen.GeneratedFiles | cp4s_connector_sdk/cmds/codegen_connector.py:100-104 | a successful run with a non-colliding name plans exactly the 12 files of `ExpectedLayout`, with the template each path names and the context `{"package_name": name}` |
| Codegen.AcmeConnectorScenario | cp4s_connector_sdk/cmds/codegen_connector.py:45-113 | `-p acme_connector -t CAR -o /tmp/out` on a fresh `/tmp/out`: base `/tmp/out/acme_connector` is created; CAR templates; the 12-file layout |

## Notes on the code

- **Twelve files.** The mapping describes twelve files: four at the top, two under
  `configurations` and six in the package directory (`Mapping.CarMappingFiles`).
- **What the up-front check tests.** The existence check tests the `--package`
  argument as a path, not the resolved output directory
  (`Codegen.ExistingOutputBaseNotRejected`). With `--output` pointing elsewhere, an
  existing `<output>/<package>` is not refused. The command then skips `makedirs` and
  goes on.

## Left out

- Rendering and writing the files: `CmdCodegen.render_jinja_mapping`.
  - It belongs to `resilient_sdk`, which is not part of this model, so the
    created/skipped reporting of lines 109-124 is not modelled.
  - `ExecuteCommand` ends by returning the plan it would hand to the renderer. The
    12-file results describe the files that plan maps; they do not describe files
    written to disk.
- The Jinja2 environment and `sdk_helpers.add_filters_to_jinja_env` (lines 84-95).
  This is a foreign templating library. Only the template root passed to its loader is
  modelled.
- `sdk_helpers.is_valid_package_name`. It is foreign code, so it is an uninterpreted
  parameter `isValidPackageName`.
- `os.path.abspath`. It is an uninterpreted parameter `absPath`, so nothing relates
  `abspath(pkg)` to `abspath(".") + "/" + pkg`. Normalisation and the current directory
  are not modelled.
- `os.path.exists`. It is membership of `absPath(p)` in the set of existing paths.
  Files and directories are not told apart.
- `Codegen.FileSystem.MakeDirs`: the ancestors are the prefixes before each `/`.
  - Trailing and repeated separators are not normalised.
  - Permission errors and races between the check and the creation are not modelled.
- `Codegen.Join`: follows POSIX `os.path.join` for two arguments. Windows paths are not
  modelled.
- Logging, including the "Generating a package of type" message. That message always
  names `DEFAULT_CONNECTOR`, not the requested type.
- `SDKException.command_ran` bookkeeping (lines 49-50). It only feeds error
  formatting in the foreign exception class.
- Argument-parser setup beyond the `--connectortype` default, which `Codegen.ParseArgs`
  models: usage text, `io_parser` and the `ensure_unicode` conversion. The rest of
  `cp4s_connector_sdk/sdk.py` is not part of this model; nor is `setup.py`, which is
  packaging metadata.
- A UDI mapping does not exist in the source. The command always builds the CAR mapping
  and only the template root follows the connector type, so none is modelled.
- Dicts.Store: its key order (a present key stays where it is, a new key goes last)
  is that of insertion-ordered dicts, Python 3.7 and later. Python 2.7, which
  `setup.py` also lists, gives no order; there only the key set and last-value-wins
  hold.
- Dicts.DictLiteralKeyOrder: the first-occurrence key order assumes insertion-ordered
  dicts (Python 3.7 and later); Python 2.7 gives no order.
- Dicts.LiteralWithRepeatedKey: "overwritten in place" and "appended" are positions in
  an insertion-ordered dict (Python 3.7 and later); on Python 2.7 only the keys and the
  winning value hold.
- Mapping.CarItemsKeys: the source order of the seven keys is the dict's order only in
  insertion-ordered dicts (Python 3.7 and later); Python 2.7 gives no order.
- Mapping.CarMappingIsItems: "in source order" assumes insertion-ordered dicts (Python
  3.7 and later); on Python 2.7 only the set of items holds.
- Mapping.PackageDirReplacesEarlierEntry: "in place" assumes insertion-ordered dicts
  (Python 3.7 and later); on Python 2.7 only the six keys and the value the package
  name reads hold.
- The mapping's leaves all share the one context object. The model gives each leaf an
  equal map value, so the sharing (aliasing) is not captured.

=== FILE: codegen.dfy ===
/** The `codegen` command (cp4s_connector_sdk/cmds/codegen_connector.py,
    ConnectorCodegenCmd.execute_command): its two checks, the output directory it
    resolves and creates, and the template root, context and mapping it hands to the
    renderer.

    The filesystem is a set of existing absolute paths together with the process's
    `os.path.abspath`, which is a parameter here: `os.path.exists(p)` holds when the
    absolute form of p is in the set, and `os.makedirs(p)` adds the absolute form of
    p and its ancestors. The package-name validator is a parameter as well. */
module Codegen {
  import opened Dicts
  import opened Locator
  import opened Mapping

  /** The parsed command line: `--package`, `--connectortype` and `--output`. */
  datatype Args = Args(package: Option<string>, connectorType: string, output: Option<string>)

  /** Everything the command hands to the renderer when it gets that far. */
  datatype Plan = Plan(
    packageName: string,
    outputBase: string,
    jinjaData: map<string, string>,
    templateRoot: string,
    mapping: Node)

  /** How a run ends: help printed, one of the two SDK errors, or the plan that is
      rendered. */
  datatype Outcome =
    | PrintedHelp
    | AlreadyExists(message: string)
    | InvalidPackageName(message: string)
    | Generated(plan: Plan)

  /** `os.curdir` */
  const CurDir := "."

  /** The parser applies the default connector type when `-t` is not given. */
  function ParseArgs(package: Option<string>, connectorType: Option<string>, output: Option<string>): (args: Args)
    ensures args.package == package && args.output == output
    ensures connectorType.Some? ==> args.connectorType == connectorType.value
    ensures connectorType.None? ==> args.connectorType == DefaultConnector
  {
    Args(package, if connectorType.Some? then connectorType.value else DefaultConnector, output)
  }

  /** Python truthiness of an optional string: present and non-empty. */
  predicate Truthy(o: Option<string>)
  {
    o.Some? && o.value != ""
  }

  /** `os.path.join(a, b)` on POSIX: an absolute b replaces a; a relative b is
      appended to a, after a separator unless a is empty or already ends with one. */
  function Join(a: string, b: string): (r: string)
    ensures |b| > 0 && b[0] == '/' ==> r == b
    ensures !(|b| > 0 && b[0] == '/') ==>
      |r| == |a| + |b| + (if a == "" || a[|a| - 1] == '/' then 0 else 1) &&
      r[..|a|] == a && r[|r| - |b|..] == b &&
      (a != "" ==> r[|r| - |b| - 1] == '/')
  {
    if |b| > 0 && b[0] == '/' then b
    else if a == "" || a[|a| - 1] == '/' then a + b
    else a + "/" + b
  }

  /** `os.path.exists` */
  predicate PathExists(absPath: string -> string, existing: set<string>, p: string)
  {
    absPath(p) in existing
  }

  /** The directories `os.makedirs` creates for an absolute path: the path itself and
      every ancestor ending before one of its separators. */
  function DirsCreatedBy(p: string): set<string>
  {
    {p} + set i | 0 < i < |p| && p[i] == '/' :: p[..i]
  }

  /** A path `os.makedirs` has created exists afterwards, and so does every path that
      existed before. */
  lemma MakeDirsThenExists(absPath: string -> string, existing: set<string>, p: string, q: string)
    ensures PathExists(absPath, existing + DirsCreatedBy(absPath(p)), p)
    ensures PathExists(absPath, existing, q) ==>
      PathExists(absPath, existing + DirsCreatedBy(absPath(p)), q)
  {
  }

  /** `os.path.join(os.path.abspath(args.output or os.curdir), package_name)` */
  function OutputBase(absPath: string -> string, output: Option<string>, packageName: string): (base: string)
    ensures packageName != "" && packageName[0] == '/' ==> base == packageName
    ensures var dir := absPath(if Truthy(output) then output.value else CurDir);
      packageName != "" && packageName[0] != '/' ==>
        |base| == |dir| + |packageName| + (if dir == "" || dir[|dir| - 1] == '/' then 0 else 1) &&
        base[..|dir|] == dir && base[|base| - |packageName|..] == packageName
  {
    Join(absPath(if Truthy(output) then output.value else CurDir), packageName)
  }

  function AlreadyExistsMessage(package: string): string
  {
    "'" + package + "' already exists. Add --reload flag to regenerate it"
  }

  function InvalidNameMessage(package: string): string
  {
    "'" + package + "' is not a valid package name"
  }

  /** What one run of the command does, from the filesystem before it: how it ends and
      which paths exist afterwards. A run only ever adds paths, only a successful run
      adds any, and after a successful run the output base exists. The mapping cannot
      raise its KeyError, because the context it is given holds `package_name`. */
  function Run(args: Args, absPath: string -> string, existing: set<string>,
               isValidPackageName: string -> bool): (r: (Outcome, set<string>))
    ensures existing <= r.1
    ensures !r.0.Generated? ==> r.1 == existing
    ensures r.0.Generated? ==> PathExists(absPath, r.1, r.0.plan.outputBase)
  {
    if !Truthy(args.package) then (PrintedHelp, existing)
    else
      var package := args.package.value;
      if PathExists(absPath, existing, package) then
        (AlreadyExists(AlreadyExistsMessage(package)), existing)
      else if !isValidPackageName(package) then
        (InvalidPackageName(InvalidNameMessage(package)), existing)
      else
        var outputBase := OutputBase(absPath, args.output, package);
        var jinjaData := map[PackageNameKey := package];
        var after := if PathExists(absPath, existing, outputBase) then existing
                     else existing + DirsCreatedBy(absPath(outputBase));
        var root := JinjaEnvLocation(args.connectorType);
        var mapping := CarConnectorMappingDict(jinjaData);
        (Generated(Plan(package, outputBase, jinjaData, root, mapping.tree)), after)
  }

  /** The filesystem the command works on. */
  class FileSystem {
    /** `os.path.abspath`, fixed for the process. */
    const absPath: string -> string
    /** The absolute paths that exist. */
    var existing: set<string>

    constructor (absPath: string -> string, existing: set<string>)
      ensures this.absPath == absPath && this.existing == existing
    {
      this.absPath := absPath;
      this.existing := existing;
    }

    /** `os.makedirs(p)` */
    method MakeDirs(p: string)
      modifies this
      ensures existing == old(existing) + DirsCreatedBy(absPath(p))
    {
      existing := existing + DirsCreatedBy(absPath(p));
    }
  }

  /** `execute_command`, up to the call of the renderer, whose input it returns. */
  method ExecuteCommand(fs: FileSystem, args: Args, isValidPackageName: string -> bool)
    returns (outcome: Outcome)
    modifies fs
    ensures (outcome, fs.existing) == Run(args, fs.absPath, old(fs.existing), isValidPackageName)
  {
    if !Truthy(args.package) {
      return PrintedHelp;
    }
    var package := args.package.value;
    if PathExists(fs.absPath, fs.existing, package) {
      return AlreadyExists(AlreadyExistsMessage(package));
    }
    if !isValidPackageName(package) {
      return InvalidPackageName(InvalidNameMessage(package));
    }
    var packageName := package;
    var outputBase := if Truthy(args.output) then args.output.value else CurDir;
    outputBase := Join(fs.absPath(outputBase), packageName);
    var jinjaData := map[PackageNameKey := packageName];
    if !PathExists(fs.absPath, fs.existing, outputBase) {
      fs.MakeDirs(outputBase);
    }
    var templateRoot := JinjaEnvLocation(args.connectorType);
    var packageMapping := CarConnectorMappingDict(jinjaData);
    outcome := Generated(Plan(packageName, outputBase, jinjaData, templateRoot, packageMapping.tree));
  }

  /** Help is printed exactly when no (or an empty) package is given, and nothing is
      created then. */
  lemma HelpWithoutPackage(args: Args, absPath: string -> string, existing: set<string>,
                           isValidPackageName: string -> bool)
    ensures var (outcome, after) := Run(args, absPath, existing, isValidPackageName);
      (outcome == PrintedHelp <==> !Truthy(args.package)) &&
      (outcome == PrintedHelp ==> after == existing)
  {
  }

  /** An existing package path is refused before the name is looked at: the outcome
      does not depend on the validator, and nothing is created. */
  lemma ExistenceCheckedFirst(args: Args, absPath: string -> string, existing: set<string>,
                              valid1: string -> bool, valid2: string -> bool)
    requires Truthy(args.package) && PathExists(absPath, existing, args.package.value)
    ensures Run(args, absPath, existing, valid1) == Run(args, absPath, existing, valid2)
    ensures Run(args, absPath, existing, valid1) ==
      (AlreadyExists(AlreadyExistsMessage(args.package.value)), existing)
  {
  }

  /** A package path that does not exist but whose name is invalid is refused, and
      nothing is created. */
  lemma NameCheckedSecond(args: Args, absPath: string -> string, existing: set<string>,
                          isValidPackageName: string -> bool)
    requires Truthy(args.package) && !PathExists(absPath, existing, args.package.value)
    requires !isValidPackageName(args.package.value)
    ensures Run(args, absPath, existing, isValidPackageName) ==
      (InvalidPackageName(InvalidNameMessage(args.package.value)), existing)
  {
  }

  /** The error messages quote the package as given. */
  lemma MessagesQuotePackage(package: string)
    ensures AlreadyExistsMessage(package)[1..|package| + 1] == package
    ensures InvalidNameMessage(package)[1..|package| + 1] == package
  {
    assert AlreadyExistsMessage(package) == ("'" + package) + "' already exists. Add --reload flag to regenerate it";
    assert InvalidNameMessage(package) == ("'" + package) + "' is not a valid package name";
    assert ("'" + package)[1..] == package;
  }

  /** The context the command builds holds `package_name`, so the mapping built from
      it never raises its KeyError. */
  lemma NeverKeyError(packageName: string)
    ensures CarConnectorMappingDict(map[PackageNameKey := packageName]).Mapped?
  {
  }

  /** Generation goes ahead exactly when a package is given, its path does not exist
      and its name is valid; every other run leaves the filesystem as it was. */
  lemma GeneratedIff(args: Args, absPath: string -> string, existing: set<string>,
                     isValidPackageName: string -> bool)
    ensures var (outcome, after) := Run(args, absPath, existing, isValidPackageName);
      (outcome.Generated? <==>
        Truthy(args.package) && !PathExists(absPath, existing, args.package.value) &&
        isValidPackageName(args.package.value)) &&
      (!outcome.Generated? ==> after == existing)
  {
  }

  /** A successful run: the output base is the absolute form of `--output` (or of the
      current directory) joined with the package name; the context holds only
      `package_name`; the template root is the one the connector type selects; the
      mapping is the CAR mapping of that context; and the output base is created only
      when it does not exist, with nothing removed either way. */
  lemma SuccessPlan(args: Args, absPath: string -> string, existing: set<string>,
                    isValidPackageName: string -> bool)
    requires Truthy(args.package) && !PathExists(absPath, existing, args.package.value)
    requires isValidPackageName(args.package.value)
    ensures var (outcome, after) := Run(args, absPath, existing, isValidPackageName);
      outcome.Generated? && var plan := outcome.plan;
      plan.packageName == args.package.value &&
      plan.outputBase == Join(absPath(if Truthy(args.output) then args.output.value else CurDir),
                              plan.packageName) &&
      plan.jinjaData.Keys == {PackageNameKey} &&
      plan.jinjaData[PackageNameKey] == plan.packageName &&
      plan.templateRoot == JinjaEnvLocation(args.connectorType) &&
      CarConnectorMappingDict(plan.jinjaData) == Mapped(plan.mapping) &&
      existing <= after && PathExists(absPath, after, plan.outputBase) &&
      (PathExists(absPath, existing, plan.outputBase) ==> after == existing) &&
      (!PathExists(absPath, existing, plan.outputBase) ==>
        after == existing + DirsCreatedBy(absPath(plan.outputBase)))
  {
  }

  /** The connector type only selects the template root: two runs that differ in it
      alone create the same directories and build the same output base, context and
      mapping. */
  lemma MappingIgnoresConnectorType(args: Args, connectorType: string, absPath: string -> string,
                                    existing: set<string>, isValidPackageName: string -> bool)
    ensures var r1 := Run(args, absPath, existing, isValidPackageName);
      var r2 := Run(args.(connectorType := connectorType), absPath, existing, isValidPackageName);
      r1.1 == r2.1 && r1.0.Generated? == r2.0.Generated? &&
      (r1.0.Generated? ==>
        r1.0.plan.(templateRoot := JinjaEnvLocation(connectorType)) == r2.0.plan)
  {
  }

  /** Without `-t`, and with any type other than "UDI", the CAR templates are used. */
  lemma DefaultConnectorTypeUsesCarTemplates(package: Option<string>, connectorType: Option<string>,
                                             output: Option<string>, absPath: string -> string,
                                             existing: set<string>, isValidPackageName: string -> bool)
    requires connectorType.None? || connectorType.value != "UDI"
    ensures var r := Run(ParseArgs(package, connectorType, output), absPath, existing, isValidPackageName);
      r.0.Generated? ==> r.0.plan.templateRoot == CarTemplateRoot
  {
  }

  /** The up-front check looks at the package argument, not at the output base: when
      the package path is absent but the output base exists, the run goes on and the
      command creates nothing. With `--output` set this is the case of an existing
      `<output>/<package>`; without it, both paths name the same directory for a plain
      relative name, which the model's uninterpreted abspath does not capture. */
  lemma ExistingOutputBaseNotRejected(args: Args, absPath: string -> string, existing: set<string>,
                                      isValidPackageName: string -> bool)
    requires Truthy(args.package) && !PathExists(absPath, existing, args.package.value)
    requires isValidPackageName(args.package.value)
    requires PathExists(absPath, existing, OutputBase(absPath, args.output, args.package.value))
    ensures var (outcome, after) := Run(args, absPath, existing, isValidPackageName);
      outcome.Generated? && after == existing
  {
  }

  /** A successful run with a package name that collides with no fixed key plans
      exactly the twelve files of ExpectedLayout below the output base, each from the
      template its path names and with the context `{"package_name": name}`. */
  lemma GeneratedFiles(args: Args, absPath: string -> string, existing: set<string>,
                       isValidPackageName: string -> bool)
    requires Truthy(args.package) && !PathExists(absPath, existing, args.package.value)
    requires isValidPackageName(args.package.value) && args.package.value !in FixedTopKeys
    ensures Run(args, absPath, existing, isValidPackageName).0.Generated?
    ensures var plan := Run(args, absPath, existing, isValidPackageName).0.plan;
      var outs := Flatten(plan.mapping, []);
      |outs| == 12 && Paths(outs) == ExpectedLayout(args.package.value) &&
      WellFormedOutputs(outs, map[PackageNameKey := args.package.value])
  {
    SuccessPlan(args, absPath, existing, isValidPackageName);
    var plan := Run(args, absPath, existing, isValidPackageName).0.plan;
    CarMappingFiles(plan.jinjaData);
  }
  /** A concrete run: `codegen -p acme_connector -t CAR -o /tmp/out` with nothing at
      the package path and no `/tmp/out/acme_connector` yet creates that directory and
      plans the twelve files of the CAR layout in it from the CAR templates. */
  lemma AcmeConnectorScenario(absPath: string -> string, existing: set<string>,
                              isValidPackageName: string -> bool)
    requires absPath("/tmp/out") == "/tmp/out"
    requires absPath("acme_connector") !in existing
    requires absPath("/tmp/out/acme_connector") !in existing
    requires isValidPackageName("acme_connector")
    ensures var (outcome, after) :=
      Run(Args(Some("acme_connector"), "CAR", Some("/tmp/out")), absPath, existing, isValidPackageName);
      outcome.Generated? &&
      outcome.plan.outputBase == "/tmp/out/acme_connector" &&
      outcome.plan.templateRoot == CarTemplateRoot &&
      Paths(Flatten(outcome.plan.mapping, [])) == ExpectedLayout("acme_connector") &&
      after == existing + DirsCreatedBy(absPath("/tmp/out/acme_connector"))
  {
    var args := Args(Some("acme_connector"), "CAR", Some("/tmp/out"));
    assert Join("/tmp/out", "acme_connector") == "/tmp/out/acme_connector";
    assert OutputBase(absPath, args.output, "acme_connector") == "/tmp/out/acme_connector";
    AcmeCollidesWithNoKey();
    GeneratedFiles(args, absPath, existing, isValidPackageName);
  }

  lemma AcmeCollidesWithNoKey()
    ensures "acme_connector" !in FixedTopKeys
  {
    assert "acme_connector"[0] != "configurations"[0];
    assert forall i :: 0 <= i < 6 ==> |FixedTopKeys[i]| == [6, 9, 8, 10, 14, 6][i];
  }
}

=== FILE: dicts.dfy ===
/** Python dictionaries as they are built by a dict literal `{k1: v1, k2: v2, ...}`.

    A dictionary is kept as its (key, value) pairs in insertion order, so that the
    ordering and key-collision behaviour of the literal can be stated: evaluating the
    literal stores its items one after the other, and storing a key that is already
    present replaces the value but keeps the key at its first position.
 */
module Dicts {

  datatype Option<T> = None | Some(value: T)

  /** The keys of a dictionary, in insertion order. */
  function Keys<V>(d: seq<(string, V)>): (ks: seq<string>)
    ensures |ks| == |d|
    ensures forall i :: 0 <= i < |d| ==> ks[i] == d[i].0
  {
    seq(|d|, i requires 0 <= i < |d| => d[i].0)
  }

  /** No key occurs twice: what every evaluated dictionary satisfies. */
  predicate DistinctKeys<V>(d: seq<(string, V)>)
  {
    forall i, j :: 0 <= i < j < |d| ==> d[i].0 != d[j].0
  }

  /** A dictionary has distinct keys when its key list has no repetition. */
  lemma DistinctKeysFromKeys<V>(d: seq<(string, V)>)
    requires forall i, j :: 0 <= i < j < |Keys(d)| ==> Keys(d)[i] != Keys(d)[j]
    ensures DistinctKeys(d)
  {
    forall i, j | 0 <= i < j < |d|
      ensures d[i].0 != d[j].0
    {
      assert Keys(d)[i] != Keys(d)[j];
    }
  }

  /** Position of the first occurrence of k. */
  function IndexOf(ks: seq<string>, k: string): (i: nat)
    requires k in ks
    ensures i < |ks| && ks[i] == k
    ensures forall j :: 0 <= j < i ==> ks[j] != k
  {
    if ks[0] == k then 0 else 1 + IndexOf(ks[1..], k)
  }

  /** The first occurrence is the only position with no earlier occurrence. */
  lemma {:induction false} IndexOfIs(ks: seq<string>, k: string, i: nat)
    requires i < |ks| && ks[i] == k
    requires forall j :: 0 <= j < i ==> ks[j] != k
    ensures IndexOf(ks, k) == i
  {
    if i > 0 {
      IndexOfIs(ks[1..], k, i - 1);
    }
  }

  /** `d[k]`: the value of the pair holding k, None where Python raises KeyError. */
  function Get<V>(d: seq<(string, V)>, k: string): (r: Option<V>)
    ensures r.None? <==> forall i :: 0 <= i < |d| ==> d[i].0 != k
    ensures r.Some? ==> (k, r.value) in d
    ensures DistinctKeys(d) ==> forall i :: 0 <= i < |d| && d[i].0 == k ==> r == Some(d[i].1)
  {
    if k in Keys(d) then Some(d[IndexOf(Keys(d), k)].1) else None
  }

  /** `d[k] = v`: a present key keeps its position and takes the new value, an absent
      key is appended. */
  function Store<V>(d: seq<(string, V)>, k: string, v: V): (r: seq<(string, V)>)
    ensures Keys(r) == if k in Keys(d) then Keys(d) else Keys(d) + [k]
  {
    if k in Keys(d) then d[IndexOf(Keys(d), k) := (k, v)] else d + [(k, v)]
  }

  /** Storing into a dictionary without duplicate keys: the stored key now reads v,
      every other key reads as before, and no duplicate key appears. */
  lemma StoreSemantics<V>(d: seq<(string, V)>, k: string, v: V)
    requires DistinctKeys(d)
    ensures DistinctKeys(Store(d, k, v))
    ensures Get(Store(d, k, v), k) == Some(v)
    ensures forall k' :: k' != k ==> Get(Store(d, k, v), k') == Get(d, k')
  {
    if k in Keys(d) {
      StoreReplaces(d, k, v);
    } else {
      StoreAppends(d, k, v);
    }
  }

  /** Replacing the value of a present key. */
  lemma StoreReplaces<V>(d: seq<(string, V)>, k: string, v: V)
    requires DistinctKeys(d) && k in Keys(d)
    ensures var r := d[IndexOf(Keys(d), k) := (k, v)];
      DistinctKeys(r) && Get(r, k) == Some(v) &&
      forall k' :: k' != k ==> Get(r, k') == Get(d, k')
  {
    var i := IndexOf(Keys(d), k);
    var r := d[i := (k, v)];
    assert Keys(r) == Keys(d);
    forall k' | k' != k && k' in Keys(d)
      ensures Get(r, k') == Get(d, k')
    {
      assert IndexOf(Keys(d), k') != i;
    }
  }

  /** Appending an absent key. */
  lemma StoreAppends<V>(d: seq<(string, V)>, k: string, v: V)
    requires DistinctKeys(d) && k !in Keys(d)
    ensures var r := d + [(k, v)];
      DistinctKeys(r) && Get(r, k) == Some(v) &&
      forall k' :: k' != k ==> Get(r, k') == Get(d, k')
  {
    var r := d + [(k, v)];
    assert Keys(r) == Keys(d) + [k];
    IndexOfIs(Keys(r), k, |d|);
    forall k' | k' != k && k' in Keys(d)
      ensures Get(r, k') == Get(d, k')
    {
      var i := IndexOf(Keys(d), k');
      IndexOfIs(Keys(r), k', i);
    }
  }

  /** The value a literal's items give k: the one of its LAST occurrence. */
  function LastValue<V>(items: seq<(string, V)>, k: string): Option<V>
  {
    if items == [] then None
    else if items[|items| - 1].0 == k then Some(items[|items| - 1].1)
    else LastValue(items[..|items| - 1], k)
  }

  /** The keys of ks, each once, in the order of their first occurrence. */
  function FirstOccurrences(ks: seq<string>): (r: seq<string>)
    ensures forall k :: k in r <==> k in ks
    ensures forall i, j :: 0 <= i < j < |r| ==> r[i] != r[j]
  {
    if ks == [] then []
    else
      var p := FirstOccurrences(ks[..|ks| - 1]);
      assert ks == ks[..|ks| - 1] + [ks[|ks| - 1]];
      if ks[|ks| - 1] in p then p else p + [ks[|ks| - 1]]
  }

  /** The dictionary a literal with these items evaluates to: each item is stored in
      turn, from left to right. */
  function DictLiteral<V>(items: seq<(string, V)>): (d: seq<(string, V)>)
    ensures DistinctKeys(d)
  {
    if items == [] then []
    else
      var n := |items| - 1;
      var p := DictLiteral(items[..n]);
      StoreSemantics(p, items[n].0, items[n].1);
      Store(p, items[n].0, items[n].1)
  }

  /** Python's dict-literal semantics, keys: they appear in the order of their first
      occurrence among the items. */
  lemma {:induction false} DictLiteralKeyOrder<V>(items: seq<(string, V)>)
    ensures Keys(DictLiteral(items)) == FirstOccurrences(Keys(items))
  {
    if items != [] {
      var n := |items| - 1;
      DictLiteralKeyOrder(items[..n]);
      assert Keys(items)[..n] == Keys(items[..n]);
    }
  }

  /** Python's dict-literal semantics, values: each key holds the value of its LAST
      occurrence among the items, and a key that does not occur is missing. */
  lemma {:induction false} DictLiteralLastValueWins<V>(items: seq<(string, V)>)
    ensures forall k :: Get(DictLiteral(items), k) == LastValue(items, k)
  {
    if items != [] {
      var n := |items| - 1;
      DictLiteralLastValueWins(items[..n]);
      StoreSemantics(DictLiteral(items[..n]), items[n].0, items[n].1);
    }
  }

  /** Evaluating one more item stores it into the dictionary of the items before it. */
  lemma DictLiteralSnoc<V>(items: seq<(string, V)>, k: string, v: V)
    ensures DictLiteral(items + [(k, v)]) == Store(DictLiteral(items), k, v)
  {
    assert (items + [(k, v)])[..|items|] == items;
  }

  /** A literal whose keys are all different evaluates to its items, in order. */
  lemma {:induction false} DictLiteralOfDistinct<V>(items: seq<(string, V)>)
    requires DistinctKeys(items)
    ensures DictLiteral(items) == items
  {
    if items != [] {
      var n := |items| - 1;
      DictLiteralOfDistinct(items[..n]);
      assert items[n].0 !in Keys(items[..n]);
      assert items[..n] + [items[n]] == items;
    }
  }

  /** A key repeated later in a literal keeps its first position and takes the later
      value; a new key after it is appended. */
  lemma LiteralWithRepeatedKey<V>(pre: seq<(string, V)>, k: string, v: V, k2: string, v2: V)
    requires DistinctKeys(pre) && k in Keys(pre) && k2 !in Keys(pre) && k2 != k
    ensures DictLiteral(pre + [(k, v), (k2, v2)]) == pre[IndexOf(Keys(pre), k) := (k, v)] + [(k2, v2)]
    ensures Keys(DictLiteral(pre + [(k, v), (k2, v2)])) == Keys(pre) + [k2]
    ensures Get(DictLiteral(pre + [(k, v), (k2, v2)]), k) == Some(v)
  {
    var first := pre + [(k, v)];
    var mid := pre[IndexOf(Keys(pre), k) := (k, v)];
    RepeatedKeyReplaces(pre, k, v);
    assert Store(mid, k2, v2) == mid + [(k2, v2)] by {
      assert Keys(mid) == Keys(pre);
    }
    assert DictLiteral(pre + [(k, v), (k2, v2)]) == mid + [(k2, v2)] by {
      DictLiteralSnoc(first, k2, v2);
      assert pre + [(k, v), (k2, v2)] == first + [(k2, v2)];
    }
    assert Get(mid + [(k2, v2)], k) == Some(v) by {
      StoreReplaces(pre, k, v);
      StoreAppends(mid, k2, v2);
    }
  }

  /** Storing a key the literal already holds, right after its distinct items. */
  lemma RepeatedKeyReplaces<V>(pre: seq<(string, V)>, k: string, v: V)
    requires DistinctKeys(pre) && k in Keys(pre)
    ensures DictLiteral(pre + [(k, v)]) == pre[IndexOf(Keys(pre), k) := (k, v)]
    ensures Keys(pre[IndexOf(Keys(pre), k) := (k, v)]) == Keys(pre)
  {
    assert Store(pre, k, v) == pre[IndexOf(Keys(pre), k) := (k, v)];
    DictLiteralOfDistinct(pre);
    DictLiteralSnoc(pre, k, v);
  }

  /** When the last two items of a literal share a key new to it, the last one wins. */
  lemma LiteralWithOverwrittenLast<V>(pre: seq<(string, V)>, k: string, v: V, v2: V)
    requires DistinctKeys(pre) && k !in Keys(pre)
    ensures DictLiteral(pre + [(k, v), (k, v2)]) == pre + [(k, v2)]
    ensures Keys(DictLiteral(pre + [(k, v), (k, v2)])) == Keys(pre) + [k]
  {
    var mid := pre + [(k, v)];
    DictLiteralOfDistinct(pre);
    DictLiteralSnoc(pre, k, v);
    assert Store(pre, k, v) == mid;
    assert DictLiteral(mid) == mid;
    LastKeyIndex(pre, k, v);
    assert Store(mid, k, v2) == pre + [(k, v2)];
    DictLiteralSnoc(mid, k, v2);
    assert DictLiteral(mid + [(k, v2)]) == pre + [(k, v2)];
    assert pre + [(k, v), (k, v2)] == mid + [(k, v2)];
    assert Keys(pre + [(k, v2)]) == Keys(pre) + [k];
  }

  /** Storing the key just appended overwrites the appended pair. */
  lemma LastKeyIndex<V>(pre: seq<(string, V)>, k: string, v: V)
    requires k !in Keys(pre)
    ensures forall v2 :: Store(pre + [(k, v)], k, v2) == pre + [(k, v2)]
  {
    var mid := pre + [(k, v)];
    assert Keys(mid) == Keys(pre) + [k];
    IndexOfIs(Keys(mid), k, |pre|);
    forall v2 ensures Store(mid, k, v2) == pre + [(k, v2)] {
      assert mid[|pre| := (k, v2)] == pre + [(k, v2)];
    }
  }
}

=== FILE: locator.dfy ===
/** Choice of the template root for a connector type
    (cp4s_connector_sdk/cmds/codegen_connector.py, get_jinja_env_location). */
module Locator {

  /** The connector type used when none is given, on the command line and here. */
  const DefaultConnector := "CAR"

  const UdiTemplateRoot := "templates/codegen/udi_connector"
  const CarTemplateRoot := "templates/codegen/car_connector"

  /** The package-relative directory the templates are loaded from. Total: only the
      exact string "UDI" selects the UDI templates, every other string (an unknown type
      or a misspelling among them) falls back to the CAR templates. */
  function JinjaEnvLocation(connectorType: string): (root: string)
    ensures root == UdiTemplateRoot <==> connectorType == "UDI"
    ensures root == CarTemplateRoot <==> connectorType != "UDI"
  {
    if connectorType == "UDI" then UdiTemplateRoot else CarTemplateRoot
  }

  /** The default argument selects the CAR templates. */
  lemma DefaultIsCar()
    ensures JinjaEnvLocation(DefaultConnector) == CarTemplateRoot
  {
  }

  /** Every type other than "UDI" is treated exactly as the default type, and the two
      roots are different, non-empty paths. */
  lemma FallsBackToDefault(connectorType: string)
    requires connectorType != "UDI"
    ensures JinjaEnvLocation(connectorType) == JinjaEnvLocation(DefaultConnector)
    ensures JinjaEnvLocation(connectorType) != JinjaEnvLocation("UDI")
    ensures JinjaEnvLocation(connectorType) != "" && JinjaEnvLocation("UDI") != ""
  {
  }
}

=== FILE: mapping.dfy ===
/** The mapping from the generated package's file tree to the templates that fill it
    (cp4s_connector_sdk/cmds/codegen_connector.py, get_car_connector_mapping_dict). */
module Mapping {
  import opened Dicts

  /** One node of the desired output tree: a file rendered from a template with a
      context, or a directory holding named children (an evaluated dict). */
  datatype Node =
    | Leaf(template: string, ctx: map<string, string>)
    | Dir(entries: seq<(string, Node)>)

  /** The mapping dict, or the KeyError raised while the literal is evaluated. */
  datatype MappingResult = Mapped(tree: Node) | KeyError(key: string)

  /** One file of the output tree: its path as a list of segments below the package
      root, the template that fills it and the context it is rendered with. */
  datatype Output = Output(path: seq<string>, template: string, ctx: map<string, string>)

  const PackageNameKey := "package_name"
  const TemplateSuffix := ".jinja2"

  const FileKeys := ["app.py", "README.md", "setup.py", "Dockerfile"]
  const ConfigurationsKey := "configurations"
  const ServerKey := "server"
  const ConfigurationFiles := ["config.json", "lang.json"]
  const ConnectorFiles := ["__init__.py", "full_import.py", "data_handler.py",
                           "inc_import.py", "requirements.txt", "server_access.py"]

  /** The top-level keys the literal writes besides the package directory's. */
  const FixedTopKeys := FileKeys + [ConfigurationsKey, ServerKey]

  /** The keys of the items written before the package directory. */
  const EarlierKeys := FileKeys + [ConfigurationsKey]

  /** The items of the inner `configurations` literal. */
  function ConfigurationsItems(data: map<string, string>): seq<(string, Node)>
  {
    [("config.json", Leaf("configurations/config.json.jinja2", data)),
     ("lang.json", Leaf("configurations/lang.json.jinja2", data))]
  }

  /** The items of the inner literal for the package directory. */
  function PackageItems(data: map<string, string>): seq<(string, Node)>
  {
    [("__init__.py", Leaf("connector/__init__.py.jinja2", data)),
     ("full_import.py", Leaf("connector/full_import.py.jinja2", data)),
     ("data_handler.py", Leaf("connector/data_handler.py.jinja2", data)),
     ("inc_import.py", Leaf("connector/inc_import.py.jinja2", data)),
     ("requirements.txt", Leaf("connector/requirements.txt.jinja2", data)),
     ("server_access.py", Leaf("connector/server_access.py.jinja2", data))]
  }

  /** The first four items of the outer literal: the top-level files. */
  function TopFileItems(data: map<string, string>): seq<(string, Node)>
  {
    [("app.py", Leaf("app.py.jinja2", data)),
     ("README.md", Leaf("README.md.jinja2", data)),
     ("setup.py", Leaf("setup.py.jinja2", data)),
     ("Dockerfile", Leaf("Dockerfile.jinja2", data))]
  }

  /** The first five items of the outer literal: the four files and `configurations`. */
  function FixedItems(data: map<string, string>): seq<(string, Node)>
  {
    TopFileItems(data) + [("configurations", Dir(ConfigurationsItems(data)))]
  }

  /** The items of the outer literal, in source order, with `packageName` as the key
      of the package directory. The inner literals have distinct keys, so each
      evaluates to its items (NestedLiterals); they are written here as evaluated. */
  function CarItems(data: map<string, string>, packageName: string): seq<(string, Node)>
  {
    FixedItems(data) + [(packageName, Dir(PackageItems(data))), ("server", Dir([]))]
  }

  /** The mapping for a CAR connector. Reading `jinja_data['package_name']` raises
      KeyError when the context lacks that key; otherwise the result is a directory
      without duplicate keys. */
  function CarConnectorMappingDict(jinjaData: map<string, string>): (r: MappingResult)
    ensures r.KeyError? <==> PackageNameKey !in jinjaData
    ensures r.KeyError? ==> r.key == PackageNameKey
    ensures r.Mapped? ==> r.tree.Dir? && DistinctKeys(r.tree.entries)
  {
    if PackageNameKey !in jinjaData then KeyError(PackageNameKey)
    else Mapped(Dir(DictLiteral(CarItems(jinjaData, jinjaData[PackageNameKey]))))
  }

  /** The files of a tree, depth first in insertion order, with paths below `prefix`. */
  function Flatten(n: Node, prefix: seq<string>): (outs: seq<Output>)
    ensures forall o :: o in outs ==> |prefix| <= |o.path| && o.path[..|prefix|] == prefix
    decreases n, 1, 0
  {
    match n
    case Leaf(t, c) => [Output(prefix, t, c)]
    case Dir(es) => FlattenFrom(es, 0, prefix)
  }

  /** The files of the entries es[i..] of one directory. */
  function FlattenFrom(es: seq<(string, Node)>, i: nat, prefix: seq<string>): (outs: seq<Output>)
    requires i <= |es|
    ensures forall o :: o in outs ==> |prefix| < |o.path| && o.path[..|prefix|] == prefix
    decreases Dir(es), 0, |es| - i
  {
    if i == |es| then []
    else Flatten(es[i].1, prefix + [es[i].0]) + FlattenFrom(es, i + 1, prefix)
  }

  function Paths(outs: seq<Output>): (ps: seq<seq<string>>)
    ensures |ps| == |outs|
    ensures forall i :: 0 <= i < |outs| ==> ps[i] == outs[i].path
  {
    seq(|outs|, i requires 0 <= i < |outs| => outs[i].path)
  }

  /** The paths `dir/name` for each name, in order. */
  function Under(dir: seq<string>, names: seq<string>): (ps: seq<seq<string>>)
    ensures |ps| == |names|
    ensures forall i :: 0 <= i < |names| ==> ps[i] == dir + [names[i]]
  {
    seq(|names|, i requires 0 <= i < |names| => dir + [names[i]])
  }

  /** The layout of a generated CAR package: four files at the top, two files under
      `configurations`, six files in the package directory, nothing under `server`. */
  function ExpectedLayout(packageName: string): seq<seq<string>>
  {
    Under([], FileKeys) + Under([ConfigurationsKey], ConfigurationFiles)
      + Under([packageName], ConnectorFiles)
  }

  /** The naming rule of the templates: the output file's name plus ".jinja2", under
      `configurations/` for the configuration files and under `connector/` for the
      package's files. */
  function TemplateName(path: seq<string>): string
    requires |path| > 0
  {
    (if |path| == 1 then ""
     else if path[0] == ConfigurationsKey then "configurations/"
     else "connector/")
    + path[|path| - 1] + TemplateSuffix
  }

  /** The inner literals have distinct keys, so they evaluate to their items. */
  lemma NestedLiterals(data: map<string, string>)
    ensures DictLiteral(ConfigurationsItems(data)) == ConfigurationsItems(data)
    ensures DictLiteral(PackageItems(data)) == PackageItems(data)
    ensures DictLiteral<Node>([]) == []
  {
    DictLiteralOfDistinct(ConfigurationsItems(data));
    PackageItemsDistinct(data);
    DictLiteralOfDistinct(PackageItems(data));
  }

  lemma PackageItemsDistinct(data: map<string, string>)
    ensures DistinctKeys(PackageItems(data))
  {
    var es := PackageItems(data);
    assert forall i :: 0 <= i < 6 ==> |es[i].0| == [11, 14, 15, 13, 16, 16][i];
    assert "requirements.txt"[0] != "server_access.py"[0];
  }

  /** The keys the outer literal writes, in source order. */
  function CarKeys(packageName: string): seq<string>
  {
    FileKeys + [ConfigurationsKey, packageName, ServerKey]
  }

  lemma CarItemsKeys(data: map<string, string>, packageName: string)
    ensures Keys(CarItems(data, packageName)) == CarKeys(packageName)
  {
    var es := CarItems(data, packageName);
    var ks := Keys(es);
    assert |ks| == 7;
    forall i | 0 <= i < 7 ensures ks[i] == CarKeys(packageName)[i] {
      assert ks[i] == es[i].0;
    }
  }

  /** The outer literal has no repeated key unless the package name is one of the six
      fixed keys. */
  lemma CarKeysDistinct(packageName: string)
    requires packageName !in FixedTopKeys
    ensures forall i, j :: 0 <= i < j < |CarKeys(packageName)| ==>
      CarKeys(packageName)[i] != CarKeys(packageName)[j]
  {
    var ks := CarKeys(packageName);
    assert ks == ["app.py", "README.md", "setup.py", "Dockerfile", "configurations", packageName, "server"];
    assert "app.py"[0] != "server"[0];
    assert forall i :: 0 <= i < 7 ==> |ks[i]| == [6, 9, 8, 10, 14, |packageName|, 6][i];
  }

  /** Without a collision the outer literal evaluates to its seven items, in order. */
  lemma CarMappingIsItems(data: map<string, string>)
    requires PackageNameKey in data && data[PackageNameKey] !in FixedTopKeys
    ensures CarConnectorMappingDict(data) == Mapped(Dir(CarItems(data, data[PackageNameKey])))
  {
    var es := CarItems(data, data[PackageNameKey]);
    CarItemsKeys(data, data[PackageNameKey]);
    CarKeysDistinct(data[PackageNameKey]);
    DistinctKeysFromKeys(es);
    DictLiteralOfDistinct(es);
  }

  /** The values of the outer literal: four files whose template is their name plus
      ".jinja2", then `configurations` and the package directory with their files, and
      the empty `server` directory; every file gets the context it was given. */
  lemma CarItemsValues(data: map<string, string>, packageName: string)
    ensures var es := CarItems(data, packageName);
      (forall i :: 0 <= i < 4 ==> es[i].1 == Leaf(FileKeys[i] + TemplateSuffix, data)) &&
      es[4].1 == Dir(ConfigurationsItems(data)) &&
      es[5].1 == Dir(PackageItems(data)) &&
      es[6].1 == Dir([])
  {
    var es := CarItems(data, packageName);
    forall i | 0 <= i < 4
      ensures es[i].1 == Leaf(FileKeys[i] + TemplateSuffix, data)
    {
      if i == 0 {
        assert "app.py" + TemplateSuffix == "app.py.jinja2";
      } else if i == 1 {
        assert "README.md" + TemplateSuffix == "README.md.jinja2";
      } else if i == 2 {
        assert "setup.py" + TemplateSuffix == "setup.py.jinja2";
      } else {
        assert "Dockerfile" + TemplateSuffix == "Dockerfile.jinja2";
      }
    }
  }

  /** Without a collision the mapping has exactly seven top-level entries: four files,
      then `configurations`, the package directory and the empty `server` directory. */
  lemma CarMappingTopLevel(data: map<string, string>)
    requires PackageNameKey in data && data[PackageNameKey] !in FixedTopKeys
    ensures CarConnectorMappingDict(data).Mapped?
    ensures var es := CarConnectorMappingDict(data).tree.entries;
      Keys(es) == CarKeys(data[PackageNameKey]) &&
      (forall i :: 0 <= i < 4 ==> es[i].1 == Leaf(FileKeys[i] + TemplateSuffix, data)) &&
      es[4].1 == Dir(ConfigurationsItems(data)) &&
      es[5].1 == Dir(PackageItems(data)) &&
      es[6].1 == Dir([])
  {
    CarMappingIsItems(data);
    CarItemsKeys(data, data[PackageNameKey]);
    CarItemsValues(data, data[PackageNameKey]);
  }

  /** Splitting the entries of a directory at k splits its files at the same place. */
  lemma {:induction false} FlattenFromSplit(es: seq<(string, Node)>, i: nat, k: nat, prefix: seq<string>)
    requires i <= k <= |es|
    ensures FlattenFrom(es, i, prefix) == FlattenFrom(es[..k], i, prefix) + FlattenFrom(es, k, prefix)
    decreases k - i
  {
    if i < k {
      FlattenFromSplit(es, i + 1, k, prefix);
      var head := Flatten(es[i].1, prefix + [es[i].0]);
      assert es[..k][i] == es[i];
      assert FlattenFrom(es[..k], i, prefix) == head + FlattenFrom(es[..k], i + 1, prefix);
      assert FlattenFrom(es, i, prefix) == head + FlattenFrom(es, i + 1, prefix);
    }
  }

  /** A directory of files flattens to one output per entry, named after its key. */
  lemma {:induction false} FlattenOfFiles(es: seq<(string, Node)>, i: nat, prefix: seq<string>)
    requires i <= |es|
    requires forall j :: i <= j < |es| ==> es[j].1.Leaf?
    ensures var outs := FlattenFrom(es, i, prefix);
      |outs| == |es| - i &&
      forall j :: 0 <= j < |outs| ==>
        outs[j] == Output(prefix + [es[i + j].0], es[i + j].1.template, es[i + j].1.ctx)
    decreases |es| - i
  {
    if i < |es| {
      FlattenOfFiles(es, i + 1, prefix);
      var rest := FlattenFrom(es, i + 1, prefix);
      var head := Output(prefix + [es[i].0], es[i].1.template, es[i].1.ctx);
      assert Flatten(es[i].1, prefix + [es[i].0]) == [head];
      assert FlattenFrom(es, i, prefix) == [head] + rest;
      forall j | 0 < j <= |rest|
        ensures ([head] + rest)[j] == Output(prefix + [es[i + j].0], es[i + j].1.template, es[i + j].1.ctx)
      {
        assert ([head] + rest)[j] == rest[j - 1];
        assert i + 1 + (j - 1) == i + j;
      }
    }
  }

  lemma {:induction false} PathsAppend(a: seq<Output>, b: seq<Output>)
    ensures Paths(a + b) == Paths(a) + Paths(b)
  {
    assert |Paths(a + b)| == |Paths(a) + Paths(b)|;
    forall i | 0 <= i < |a + b|
      ensures Paths(a + b)[i] == (Paths(a) + Paths(b))[i]
    {
      if i < |a| {
        assert (a + b)[i] == a[i];
      } else {
        assert (a + b)[i] == b[i - |a|];
      }
    }
  }

  /** Every output of `outs` carries the context `data` and the template its path calls
      for. */
  predicate WellFormedOutputs(outs: seq<Output>, data: map<string, string>)
  {
    forall i :: 0 <= i < |outs| ==>
      outs[i].ctx == data && |outs[i].path| > 0 && outs[i].template == TemplateName(outs[i].path)
  }

  // The template names of the literal, as the naming rule builds them.

  lemma TopTemplateNames()
    ensures "app.py" + TemplateSuffix == "app.py.jinja2"
    ensures "README.md" + TemplateSuffix == "README.md.jinja2"
    ensures "setup.py" + TemplateSuffix == "setup.py.jinja2"
    ensures "Dockerfile" + TemplateSuffix == "Dockerfile.jinja2"
  {
  }

  lemma ConfigurationTemplateNames()
    ensures "configurations/" + "config.json" + TemplateSuffix == "configurations/config.json.jinja2"
    ensures "configurations/" + "lang.json" + TemplateSuffix == "configurations/lang.json.jinja2"
  {
  }

  // The package directory's six template names, two per lemma to keep each proof small.

  lemma InitAndFullImportTemplateNames()
    ensures "connector/" + "__init__.py" + TemplateSuffix == "connector/__init__.py.jinja2"
    ensures "connector/" + "full_import.py" + TemplateSuffix == "connector/full_import.py.jinja2"
  {
  }

  lemma DataHandlerAndIncImportTemplateNames()
    ensures "connector/" + "data_handler.py" + TemplateSuffix == "connector/data_handler.py.jinja2"
    ensures "connector/" + "inc_import.py" + TemplateSuffix == "connector/inc_import.py.jinja2"
  {
  }

  lemma RequirementsAndServerAccessTemplateNames()
    ensures "connector/" + "requirements.txt" + TemplateSuffix == "connector/requirements.txt.jinja2"
    ensures "connector/" + "server_access.py" + TemplateSuffix == "connector/server_access.py.jinja2"
  {
  }

  /** The four top-level files. */
  lemma TopFiles(data: map<string, string>)
    ensures var outs := FlattenFrom(TopFileItems(data), 0, []);
      Paths(outs) == Under([], FileKeys) && WellFormedOutputs(outs, data)
  {
    var es := TopFileItems(data);
    FlattenOfFiles(es, 0, []);
    var outs := FlattenFrom(es, 0, []);
    TopTemplateNames();
    forall i | 0 <= i < 4
      ensures outs[i].ctx == data && outs[i].path == [FileKeys[i]]
      ensures outs[i].template == TemplateName(outs[i].path)
    {
    }
  }

  /** The two files under `configurations`. */
  lemma ConfigurationFilesOf(data: map<string, string>)
    ensures var outs := Flatten(Dir(ConfigurationsItems(data)), [ConfigurationsKey]);
      Paths(outs) == Under([ConfigurationsKey], ConfigurationFiles) && WellFormedOutputs(outs, data)
  {
    var es := ConfigurationsItems(data);
    FlattenOfFiles(es, 0, [ConfigurationsKey]);
    var outs := FlattenFrom(es, 0, [ConfigurationsKey]);
    ConfigurationTemplateNames();
    forall i | 0 <= i < 2
      ensures outs[i].ctx == data && outs[i].path == [ConfigurationsKey, ConfigurationFiles[i]]
      ensures outs[i].template == TemplateName(outs[i].path)
    {
    }
  }

  /** The six files of the package directory, whatever its name, each from the
      `connector/` template of its file name. The naming rule TemplateName reads a
      directory called `configurations` as the configuration directory, so it agrees
      with these templates for every other name; the collision of the name
      `configurations` with the literal's own entry is stated by
      PackageDirReplacesEarlierEntry. */
  lemma PackageFilesOf(data: map<string, string>, packageName: string)
    ensures var outs := Flatten(Dir(PackageItems(data)), [packageName]);
      Paths(outs) == Under([packageName], ConnectorFiles) && |outs| == 6 &&
      forall i :: 0 <= i < 6 ==>
        outs[i].ctx == data && outs[i].template == "connector/" + ConnectorFiles[i] + TemplateSuffix
    ensures packageName != ConfigurationsKey ==>
      WellFormedOutputs(Flatten(Dir(PackageItems(data)), [packageName]), data)
  {
    var es := PackageItems(data);
    FlattenOfFiles(es, 0, [packageName]);
    var outs := FlattenFrom(es, 0, [packageName]);
    InitAndFullImportTemplateNames();
    DataHandlerAndIncImportTemplateNames();
    RequirementsAndServerAccessTemplateNames();
    forall i | 0 <= i < 6
      ensures outs[i].ctx == data && outs[i].path == [packageName, ConnectorFiles[i]]
      ensures outs[i].template == "connector/" + ConnectorFiles[i] + TemplateSuffix
      ensures packageName != ConfigurationsKey ==> outs[i].template == TemplateName(outs[i].path)
    {
    }
  }

  lemma WellFormedAppend(a: seq<Output>, b: seq<Output>, data: map<string, string>)
    requires WellFormedOutputs(a, data) && WellFormedOutputs(b, data)
    ensures WellFormedOutputs(a + b, data)
  {
    forall i | 0 <= i < |a + b|
      ensures (a + b)[i].ctx == data && |(a + b)[i].path| > 0
      ensures (a + b)[i].template == TemplateName((a + b)[i].path)
    {
      if i < |a| {
        assert (a + b)[i] == a[i];
      } else {
        assert (a + b)[i] == b[i - |a|];
      }
    }
  }

  /** The files of the outer literal, group by group. */
  lemma CarItemsFlatten(data: map<string, string>, packageName: string)
    ensures Flatten(Dir(CarItems(data, packageName)), []) ==
      FlattenFrom(TopFileItems(data), 0, [])
      + Flatten(Dir(ConfigurationsItems(data)), [ConfigurationsKey])
      + Flatten(Dir(PackageItems(data)), [packageName])
  {
    var es := CarItems(data, packageName);
    FlattenFromSplit(es, 0, 4, []);
    assert es[..4] == TopFileItems(data);
    assert es[4] == (ConfigurationsKey, Dir(ConfigurationsItems(data)));
    assert es[5] == (packageName, Dir(PackageItems(data)));
    assert es[6] == (ServerKey, Dir([]));
    assert Flatten(Dir([]), [ServerKey]) == FlattenFrom([], 0, [ServerKey]) == [];
    assert FlattenFrom(es, 6, []) == [];
    assert [] + [es[4].0] == [ConfigurationsKey] && [] + [es[5].0] == [packageName];
    assert FlattenFrom(es, 5, []) == Flatten(Dir(PackageItems(data)), [packageName]);
    assert FlattenFrom(es, 4, []) == Flatten(Dir(ConfigurationsItems(data)), [ConfigurationsKey])
      + Flatten(Dir(PackageItems(data)), [packageName]);
  }

  /** Without a collision the mapping describes exactly twelve files, laid out as
      ExpectedLayout says: four at the top, two under `configurations`, six in the
      package directory and none under `server`. Each is rendered with the very context
      the mapping was built from, from the template its path names. */
  lemma CarMappingFiles(data: map<string, string>)
    requires PackageNameKey in data && data[PackageNameKey] !in FixedTopKeys
    ensures CarConnectorMappingDict(data).Mapped?
    ensures var outs := Flatten(CarConnectorMappingDict(data).tree, []);
      |outs| == 12 &&
      Paths(outs) == ExpectedLayout(data[PackageNameKey]) &&
      WellFormedOutputs(outs, data)
  {
    var pkg := data[PackageNameKey];
    CarMappingIsItems(data);
    CarItemsFlatten(data, pkg);
    var top := FlattenFrom(TopFileItems(data), 0, []);
    var conf := Flatten(Dir(ConfigurationsItems(data)), [ConfigurationsKey]);
    var own := Flatten(Dir(PackageItems(data)), [pkg]);
    TopFiles(data);
    ConfigurationFilesOf(data);
    PackageFilesOf(data, pkg);
    PathsAppend(top, conf);
    PathsAppend(top + conf, own);
    WellFormedAppend(top, conf, data);
    WellFormedAppend(top + conf, own, data);
  }

  /** The package name only names the package directory: for two names that collide
      with no fixed key, the mappings describe the same twelve templates in the same
      order, at the same paths except for the first segment of the package's files. */
  lemma PackageNameOnlyNamesItsDirectory(d1: map<string, string>, d2: map<string, string>)
    requires PackageNameKey in d1 && d1[PackageNameKey] !in FixedTopKeys
    requires PackageNameKey in d2 && d2[PackageNameKey] !in FixedTopKeys
    ensures CarConnectorMappingDict(d1).Mapped? && CarConnectorMappingDict(d2).Mapped?
    ensures var o1 := Flatten(CarConnectorMappingDict(d1).tree, []);
      var o2 := Flatten(CarConnectorMappingDict(d2).tree, []);
      |o1| == |o2| == 12 &&
      (forall i :: 0 <= i < 12 ==> o1[i].template == o2[i].template) &&
      (forall i :: 0 <= i < 6 ==> o1[i].path == o2[i].path) &&
      (forall i :: 6 <= i < 12 ==>
        o1[i].path == [d1[PackageNameKey], ConnectorFiles[i - 6]] &&
        o2[i].path == [d2[PackageNameKey], ConnectorFiles[i - 6]])
  {
    CarMappingFiles(d1);
    CarMappingFiles(d2);
    var o1 := Flatten(CarConnectorMappingDict(d1).tree, []);
    var o2 := Flatten(CarConnectorMappingDict(d2).tree, []);
    var l1 := ExpectedLayout(d1[PackageNameKey]);
    var l2 := ExpectedLayout(d2[PackageNameKey]);
    forall i | 0 <= i < 12
      ensures o1[i].template == o2[i].template
      ensures i < 6 ==> o1[i].path == o2[i].path
      ensures 6 <= i ==> o1[i].path == [d1[PackageNameKey], ConnectorFiles[i - 6]]
      ensures 6 <= i ==> o2[i].path == [d2[PackageNameKey], ConnectorFiles[i - 6]]
    {
      assert Paths(o1)[i] == o1[i].path && Paths(o2)[i] == o2[i].path;
      if i < 6 {
        assert l1[i] == l2[i];
      } else {
        assert l1[i] == [d1[PackageNameKey], ConnectorFiles[i - 6]];
        assert l2[i] == [d2[PackageNameKey], ConnectorFiles[i - 6]];
      }
    }
  }

  /** The five items written before the package directory have distinct keys. */
  lemma FixedItemsLiteral(data: map<string, string>)
    ensures Keys(FixedItems(data)) == EarlierKeys
    ensures forall i, j :: 0 <= i < j < |EarlierKeys| ==> EarlierKeys[i] != EarlierKeys[j]
    ensures DictLiteral(FixedItems(data)) == FixedItems(data)
  {
    var es := FixedItems(data);
    var ks := Keys(es);
    assert |ks| == 5;
    forall i | 0 <= i < 5 ensures ks[i] == EarlierKeys[i] {
      assert ks[i] == es[i].0;
    }
    assert forall i :: 0 <= i < 5 ==> |EarlierKeys[i]| == [6, 9, 8, 10, 14][i];
    DistinctKeysFromKeys(es);
    DictLiteralOfDistinct(es);
  }

  /** A package named like one of the four files or like `configurations` takes that
      entry's place: the later key of the literal wins, at the position of the first.
      The mapping then has six top-level entries, and the replaced file or directory
      is not generated. */
  lemma PackageDirReplacesEarlierEntry(data: map<string, string>)
    requires PackageNameKey in data && data[PackageNameKey] in EarlierKeys
    ensures CarConnectorMappingDict(data).Mapped?
    ensures var pkg := data[PackageNameKey];
      var es := CarConnectorMappingDict(data).tree.entries;
      es == FixedItems(data)[IndexOf(EarlierKeys, pkg) := (pkg, Dir(PackageItems(data)))]
            + [(ServerKey, Dir([]))] &&
      Keys(es) == FixedTopKeys &&
      Get(es, pkg) == Some(Dir(PackageItems(data)))
  {
    var pkg := data[PackageNameKey];
    var fixed := FixedItems(data);
    var own := Dir(PackageItems(data));
    assert Keys(fixed) == EarlierKeys && DistinctKeys(fixed) by {
      FixedItemsLiteral(data);
      DistinctKeysFromKeys(fixed);
    }
    ServerKeyIsNew();
    assert CarItems(data, pkg) == fixed + [(pkg, own), (ServerKey, Dir([]))];
    LiteralWithRepeatedKey(fixed, pkg, own, ServerKey, Dir([]));
  }

  lemma ServerKeyIsNew()
    ensures ServerKey !in EarlierKeys
  {
    assert forall i :: 0 <= i < 5 ==> |EarlierKeys[i]| == [6, 9, 8, 10, 14][i];
    assert "app.py"[0] != "server"[0];
  }

  /** A package named `server` is replaced by the empty `server` directory that the
      literal writes after it: the mapping has six top-level entries and no file of
      the package directory is generated. */
  lemma ServerReplacesPackageDir(data: map<string, string>)
    requires PackageNameKey in data && data[PackageNameKey] == ServerKey
    ensures CarConnectorMappingDict(data).Mapped?
    ensures var es := CarConnectorMappingDict(data).tree.entries;
      es == FixedItems(data) + [(ServerKey, Dir([]))] &&
      Keys(es) == FixedTopKeys
    ensures Paths(Flatten(CarConnectorMappingDict(data).tree, [])) ==
      Under([], FileKeys) + Under([ConfigurationsKey], ConfigurationFiles)
  {
    var fixed := FixedItems(data);
    assert Keys(fixed) == EarlierKeys && DistinctKeys(fixed) by {
      FixedItemsLiteral(data);
      DistinctKeysFromKeys(fixed);
    }
    ServerKeyIsNew();
    assert CarItems(data, ServerKey) == fixed + [(ServerKey, Dir(PackageItems(data))), (ServerKey, Dir([]))];
    LiteralWithOverwrittenLast(fixed, ServerKey, Dir(PackageItems(data)), Dir([]));
    ServerCaseFlatten(data);
  }

  lemma ServerCaseFlatten(data: map<string, string>)
    ensures Paths(Flatten(Dir(FixedItems(data) + [(ServerKey, Dir([]))]), [])) ==
      Under([], FileKeys) + Under([ConfigurationsKey], ConfigurationFiles)
  {
    var es := FixedItems(data) + [(ServerKey, Dir([]))];
    FlattenFromSplit(es, 0, 4, []);
    assert es[..4] == TopFileItems(data);
    assert Flatten(Dir([]), [ServerKey]) == FlattenFrom([], 0, [ServerKey]) == [];
    assert FlattenFrom(es, 5, []) == [];
    assert [] + [es[4].0] == [ConfigurationsKey];
    assert FlattenFrom(es, 4, []) == Flatten(Dir(ConfigurationsItems(data)), [ConfigurationsKey]);
    var top := FlattenFrom(TopFileItems(data), 0, []);
    var conf := Flatten(Dir(ConfigurationsItems(data)), [ConfigurationsKey]);
    TopFiles(data);
    ConfigurationFilesOf(data);
    PathsAppend(top, conf);
  }
}
